=== FILE: README.md ===
# Portfolio site core, modelled in Dafny

This project models the logic inside a single-page portfolio site for a
painter. The site shows a filterable gallery, a full-screen lightbox, and a
contact form, in English, Russian and Hebrew. Most of the repository is
markup. The parts with real logic are modelled here as pure functions over
immutable data:

- **Locale fallback merge** (`I18n`, `src/utils/i18n.js`). A target-language
  dictionary is laid over the English one. Arrays are replaced whole. Other
  non-object values are replaced by any override that is present and not
  null. Objects keep exactly English's keys.
- **Locale shape checks** (`SanityTest`, `SanityScript`). These are the two
  copies of `compareShape` in `scripts/`, the locale loop that uses them, and
  the artwork-catalog validity test.
- **Translation loading** (`Translations`, `src/App.jsx`). It keeps a
  per-locale cache of raw dictionaries, fetches English first, merges the
  target over English, and falls back to English when a fetch fails.
  Fetching is an oracle parameter `fetch: string -> Fetched`.
- **Gallery and lightbox state** (`Gallery`, `Lightbox`). This covers the
  category filter, the open/close/next/previous transitions with JavaScript's
  `%`, the body scroll lock, the right-to-left aware arrow keys and chevrons,
  click bubbling to the backdrop, what the lightbox renders, and the
  language cycle. `Gallery.IsRTL` holds exactly for `"he"`.
- **Contact form** (`ContactForm`). It covers trimming, the email pattern,
  `validateForm`, and the gates `handleSubmit` passes before sending.
- **Asset URLs** (`Assets`). Base-path normalisation, leading-slash
  stripping, and the `w=800` to `w=1200` upgrade of remote images.
- **Gallery dimensions** (`GalleryDimensions`). A lookup with a
  1600 by 2000 fallback.

JSON is the datatype `JsonTree.Json`. An absent value (JavaScript
`undefined`) is `Wrappers.None`. `JsonTree.Lookup` is `override?.[key]`.

Two behaviours of the code are easy to misread, and the model keeps them as
written:

- The merge replaces a non-array, non-object base value with any present,
  non-null override, whatever the override's type (`I18n.MergeLeaf`).
- Navigation computes `(i + 1) % N` forward and `(i - 1 + N) % N` back, and
  there is no touch or swipe handling (`Gallery.NextImage`,
  `Gallery.PrevImage`).

## Model

| member | source | states |
|---|---|---|
| JsonTree.Lookup | src/utils/i18n.js:13 | `override?.[key]` is present exactly when the override is an object owning the key, and is then that child |
| I18n.MergeLeaf | src/utils/i18n.js:4-10 | an array base is replaced by an array override and kept otherwise; any other non-object base is replaced by any present, non-null override and kept when the override is absent or null |
| I18n.MergeWithFallback | src/utils/i18n.js:3-16 | an object base gives an object with exactly the base's keys; an array base gives an array; an absent override returns the base unchanged |
| I18n.MergeSelf | src/utils/i18n.js:3-16 | merging a dictionary with itself returns it (the English-only load) |
| I18n.MergeIdempotent | src/utils/i18n.js:3-16 | merging the same override twice equals merging it once |
| I18n.MergeAlongPath | src/utils/i18n.js:12-15 | at every path where the base has an object the result has an object with the same keys; at every other base path the result is the leaf rule applied to the base and override values there |
| I18n.MergeExample | src/utils/i18n.js:3-16 | the worked example: a nested key falls back to English, an array is replaced whole |
| SanityTest.CompareShapeCases | scripts/sanity.test.js:11-26 | an array base accepts exactly array candidates; a scalar or null base accepts any defined candidate; an object base with a key rejects absent and null; an empty object accepts anything |
| SanityTest.CompareShapeReflexive | scripts/sanity.test.js:36-42 | every dictionary passes the shape check against itself |
| SanityTest.MergeConformsToBase | scripts/sanity.test.js:11-26 | for every override, the merged dictionary passes the shape check against the base |
| SanityTest.LocalesShareShapeExactly | scripts/sanity.test.js:36-42 | the locale test passes exactly when all three files exist and Russian and Hebrew have English's shape |
| SanityTest.ArtworksValidDecodes | scripts/sanity.test.js:44-62 | the catalog test passes exactly when the catalog is an array whose entries all read as artwork records, and there is at least one |
| Catalog.DecodeArtwork | scripts/sanity.test.js:53-60 | an entry reads as an artwork exactly when it has a numeric `id` and string `title`, `category` and `src`, and the record keeps all four values |
| Catalog.DecodeAll | scripts/sanity.test.js:51-61 | the catalog reads exactly when every entry reads, giving one record per entry in order |
| SanityScript.CompareShape | scripts/sanity-test.js:14-29 | the script's key-by-key check accepts exactly what the test-suite copy accepts |
| SanityScript.CheckLocales | scripts/sanity-test.js:31-35 | the script passes exactly when `en`, `ru` and `he` are all present and have English's shape |
| Gallery.FilteredArtworks | src/App.jsx:151 | an artwork is in the view exactly when it is in the catalog and the filter is `all` or its category |
| Gallery.FilterConcat | src/App.jsx:151 | filtering distributes over concatenation, so the view keeps catalog order |
| Gallery.FilterAllIsIdentity | src/App.jsx:151 | the `all` filter gives the whole catalog unchanged |
| Gallery.FilterByCategory | src/App.jsx:151 | under any other filter every artwork in the view has that category |
| Gallery.JsRem | src/App.jsx:168-174 | JavaScript's `%` is smaller in size than the divisor, differs from the dividend by a multiple of it, agrees with the mathematical remainder on non-negative numbers, and is never positive for non-positive ones |
| Gallery.OpenLightbox | src/App.jsx:153-158 | on an empty view nothing changes; otherwise the lightbox opens at the given index, unchecked, and scrolling locks |
| Gallery.CloseLightbox | src/App.jsx:160-163 | the lightbox closes and scrolling unlocks, the index is kept |
| Gallery.NextImage | src/App.jsx:165-169 | a no-op on an empty view; from any index of at least -1 the result is in range; inside the range it is the successor, wrapping last to first |
| Gallery.PrevImage | src/App.jsx:171-175 | a no-op on an empty view; from any index of at least 1-N the result is in range; inside the range it is the predecessor, wrapping first to last |
| Gallery.NextPrevRoundTrip | src/App.jsx:165-175 | inside the range, previous undoes next and next undoes previous |
| Gallery.NextTimesIndex | src/App.jsx:168 | up to N steps forward land k places on, wrapping past the end once |
| Gallery.NextCycle | src/App.jsx:168 | N steps forward return to the starting index |
| Gallery.KeyDown | src/App.jsx:296-310 | keys act only while open; Escape closes; ArrowLeft is previous (next in RTL), ArrowRight the mirror; other keys do nothing |
| Gallery.KeyDownMirror | src/App.jsx:303-309 | in right-to-left layout each arrow does what the other arrow does left-to-right |
| Gallery.KeyDownInRange | src/App.jsx:296-310 | no key takes an in-range index out of range, and ArrowRight undoes ArrowLeft |
| Gallery.TransitionsKeepScrollLock | src/App.jsx:153-163 | every lightbox transition keeps page scrolling locked exactly while the lightbox is open |
| Gallery.ToggleLang | src/App.jsx:320-324 | the next language is always supported: each supported language goes to the next in `en`, `ru`, `he` order, anything else to `en` |
| Gallery.ToggleLangCycle | src/App.jsx:320-324 | three presses return to the starting language, passing through the other two |
| Lightbox.Render | src/components/Lightbox.jsx:15-19 | nothing is shown exactly when closed or the view is empty; an out-of-range index breaks the render; otherwise the indexed artwork is shown with its upscaled image source |
| Lightbox.Click | src/components/Lightbox.jsx:24-48 | backdrop and close button close; the panel changes nothing; the left chevron is previous (next in RTL), the right the mirror |
| Lightbox.ChevronsMatchArrows | src/components/Lightbox.jsx:34-46 | each chevron does what the arrow key on its side does |
| Lightbox.Step | src/App.jsx:296-314 | opening goes through `openLightbox` on the current view; keys go to the listener with the view length it was installed with; taps use the current view and do nothing while the lightbox is not on screen; a filter button changes only the filter; only the language button changes the language; the listener is reinstalled with the current length when the lightbox opens or the direction flips while open, and keys, taps and a repeated or empty open keep it |
| Lightbox.ArrowsFollowLanguage | src/App.jsx:39 | the direction is right-to-left exactly for Hebrew, where the left arrow goes forward and the right arrow back, wrapping at the listener's length |
| Lightbox.StepKeepsConsistent | src/App.jsx:151-175 | any event except a filter change while open keeps the open lightbox on an artwork of the view, with the listener knowing the view's length |
| Lightbox.NeverBroken | src/components/Lightbox.jsx:15-19 | from a consistent state, opening only inside the view and changing the filter only while closed, no sequence of keys, clicks, filter and language changes renders a missing artwork |
| Lightbox.FilterChangeWhileOpen | src/App.jsx:151 | a filter change while open keeps the index, so the render breaks exactly when the new view is non-empty and shorter than the index requires |
| Lightbox.ArrowsOutrunView | src/App.jsx:296-314 | with a listener installed for a longer view, the right arrow from the last artwork steps past the end and breaks the render, while the right chevron wraps to the first |
| Lightbox.StaleListener | src/App.jsx:151-158 | opening the first of five artworks and then switching to the two oils leaves the listener at five with two on show |
| Lightbox.OilScenario | src/App.jsx:151-175 | five artworks with oils at ids 1 and 3: opening the oil view shows 1, next shows 3, next wraps to 1 |
| Assets.NormalizeBase | src/utils/assets.js:2-3 | the base (default `/`) ends in `/`; a `/` is appended only when it is missing |
| Assets.StripLeadingSlashes | src/utils/assets.js:4 | the result is a suffix of the path, everything dropped is `/`, and it does not start with `/` |
| Assets.AssetUrl | src/utils/assets.js:1-5 | the normalised base is a prefix of the URL and is followed by the stripped path, never by a `/` |
| Assets.StripSlashRun | src/utils/assets.js:4 | any run of leading slashes is stripped entirely |
| Assets.AssetUrlSlashRun | src/utils/assets.js:4 | `"///x"`, `"/x"` and `"x"` give the same URL |
| Assets.FindFrom | src/utils/assets.js:10 | the result is the first occurrence of the pattern at or after the start, or absent when there is none |
| Assets.ReplaceFirst | src/utils/assets.js:10 | with no occurrence the string is unchanged; otherwise only the first occurrence is replaced |
| Assets.ResolveImageSrc | src/utils/assets.js:7-16 | remote sources pass through, upgraded at the first `w=800` when upscaling; other sources become asset URLs, ignoring upscale |
| Assets.UpscaleKeepsScheme | src/utils/assets.js:8-10 | upscaling a remote source leaves it remote |
| GalleryDimensions.GetItemDimensions | src/utils/galleryDimensions.js:3-4 | a present entry is returned as stored, a missing one gives the fallback |
| GalleryDimensions.LookupIsLocal | src/utils/galleryDimensions.js:3-4 | only the entry for the requested id affects the result |
| GalleryDimensions.DimensionsExamples | scripts/galleryDimensions.test.js:5-15 | the unit test's cases: a stored 800 by 600 entry is returned, a missing one gives 1600 by 2000 |
| ContactForm.TrimStart | src/App.jsx:180 | a suffix of the input, everything dropped white space, not starting with white space |
| ContactForm.TrimEnd | src/App.jsx:180 | a prefix of the input, everything dropped white space, not ending with white space |
| ContactForm.Trim | src/App.jsx:180 | the trimmed string is a contiguous slice of the input with only white space removed on either side, and it neither starts nor ends with white space |
| ContactForm.TrimEmptyIffBlank | src/App.jsx:180-191 | a field trims to empty exactly when it is all white space |
| ContactForm.MatchesEmail | src/App.jsx:186 | the scan accepts exactly the strings the email pattern matches |
| ContactForm.CheckEmail | src/App.jsx:184-188 | the email error is absent exactly when the field is not blank and its trimmed value matches the pattern; otherwise required when blank, invalid when not |
| ContactForm.ValidateForm | src/App.jsx:177-195 | errors are reported for a blank name or message, a blank email (required) or a non-matching one (invalid), and for nothing else, never the topic |
| ContactForm.ResolveKey | src/App.jsx:12-13 | a set, non-empty environment value is the key; an unset or empty one gives the fallback, so the key is never empty when the fallback is not |
| ContactForm.HandleSubmit | src/App.jsx:214-238 | all fields become touched; validation errors stop first, then a missing key (misconfigured), then a missing captcha token; only after all three does sending start |
| ContactForm.KeysAlwaysConfigured | src/App.jsx:12-13 | with the built-in fallbacks both keys are non-empty, so the misconfigured branch cannot be reached |
| Translations.Fail | src/App.jsx:63-70 | a failure records its message and shows cached English when there is one, otherwise keeps what was shown |
| Translations.LoadTranslations | src/App.jsx:44-75 | English is fetched first and only when uncached; each locale is fetched at most once, so English alone is fetched at most once; every new or changed cache entry is a dictionary that was just fetched; another locale only when uncached and English is available; raw dictionaries are cached; success shows the target merged over English; failure records the failed fetch's message and falls back to cached English |
| Translations.EnglishFailureKeepsPrevious | src/App.jsx:49-70 | when English is uncached and its fetch fails, nothing is cached, the error is recorded and the previous dictionary stays on screen |
| Translations.EnglishShowsEnglish | src/App.jsx:53-58 | loading English shows the English dictionary itself |
| Translations.LoadedHasEnglishShape | src/App.jsx:58 | a successful load shows a dictionary with English's shape |
| Translations.ReloadUsesCache | src/App.jsx:49-56 | loading a locale again after a successful load fetches nothing and shows the same dictionary |
| Translations.HebrewFailureFallsBack | src/App.jsx:63-70 | with English cached and the Hebrew fetch failing, English is shown and the error recorded |

## Left out

- `fetchLocale` (src/utils/i18n.js:18-39): network fetches, URL building from `window.location` and the retry over two URLs. Its settled outcome is the `fetch` oracle of `Translations.LoadTranslations`.
- The `isMounted` guards against stale async results, the artwork catalog fetch, and the font, scroll and `document.dir` effects in src/App.jsx. They concern component lifetime and browser I/O.
- The contact submission itself: the form POST, the response handling and the captcha widget callbacks. Only the gating prefix of `handleSubmit` is modelled.
- Error message texts. Validation and submission messages come from the dictionary (`t.contact.errors.*`) and are modelled as `ContactForm.ErrorKind` tags.
- Rendering markup: the navigation, hero, about, contact and gallery components, and the gallery's own image viewer. The gallery grid never receives `openLightbox`, so the lightbox model is not tied to gallery clicks.
- Key order of JSON objects (`Object.keys` order). Objects are maps.
- JsonTree.Lookup: `override?.[key]` on a string or array override is absent in the model. In JavaScript it reads an index or `length`. Locale dictionaries are objects, so this is a deliberate simplification. Inherited prototype properties are absent too.
- SanityTest.CompareShape: `hasOwnProperty` on a string or array candidate is false in the model, matching the simplification above.
- GalleryDimensions.GetItemDimensions: entries are always dimension records, so a falsy stored entry (which would also fall back) is not modelled. JavaScript's conversion of numeric ids to string keys is left to the key type.
- Gallery.JsRem: JavaScript number limits (floating point, precision beyond 2^53) are not modelled; indices are unbounded integers.
- The loading and "unable to load translations" screens and the fallback banner (src/App.jsx:326-348), which are rendering of the state `Translations.LoadTranslations` produces.
- Building the render dictionary `t` from `translations || cache.en || {}` (src/App.jsx:38), a rendering detail.
- Lightbox.NeverBroken: holds only for runs that change the filter while the lightbox is closed. A filter change while it is open keeps the index (`Lightbox.FilterChangeWhileOpen`), and the key listener keeps the old view length (`Lightbox.ArrowsOutrunView`, `Lightbox.StaleListener`), so the render can read a missing artwork. Nothing in the page calls `openLightbox`, because the gallery grid opens its own viewer. That makes this a latent defect of the App component, not one a visitor can reach, so the model keeps the code as written rather than correcting it.
- Lightbox.ChevronsMatchArrows: compares a chevron with an arrow key at one view length. After a filter change while open, the page's arrow keys use the listener's older length (`Lightbox.ArrowsOutrunView`).
- I18n.MergeWithFallback: a dictionary key named `__proto__` is kept in the model. In JavaScript, assigning it on the `{}` accumulator sets the prototype instead of adding an own key, so the merged object lacks that key. Locale files have no such key.
- The catalog the page holds is a list of decoded `Catalog.Artwork` records. The application stores the parsed `artworks.json` without checking it (src/App.jsx:106), so the model assumes a catalog that passes `SanityTest.ArtworksValid`, which is what the offline test checks.

=== FILE: assets.dfy ===
/**
 * Static asset URLs (src/utils/assets.js): files under the deployment's base
 * path, and remote images with an optional width upgrade.
 */
module Assets {
  import opened Wrappers

  /** The base used when the build provides none. */
  const DefaultBase: string := "/"

  /** The width parameter that marks a thumbnail-sized remote image, and its upgrade. */
  const ThumbWidth: string := "w=800"
  const FullWidth: string := "w=1200"

  /** The base path with exactly one `/` guaranteed at its end. */
  function NormalizeBase(base: Option<string>): (r: string)
    ensures |r| > 0 && r[|r| - 1] == '/'
    ensures base.GetOr(DefaultBase) <= r
    ensures |r| <= |base.GetOr(DefaultBase)| + 1
    ensures var b := base.GetOr(DefaultBase); |b| > 0 && b[|b| - 1] == '/' ==> r == b
  {
    var b := base.GetOr(DefaultBase);
    if |b| > 0 && b[|b| - 1] == '/' then b else b + "/"
  }

  /** `path.replace(/^\/+/, '')`: the path without its leading slashes. */
  function StripLeadingSlashes(path: string): (r: string)
    ensures r == [] || r[0] != '/'
    ensures |r| <= |path| && r == path[|path| - |r|..]
    ensures forall i | 0 <= i < |path| - |r| :: path[i] == '/'
  {
    if path != [] && path[0] == '/' then StripLeadingSlashes(path[1..]) else path
  }

  /** `assetUrl(path)`: the normalised base followed by the path, leading slashes dropped. */
  function AssetUrl(base: Option<string>, path: string): (r: string)
    ensures NormalizeBase(base) <= r
    ensures |r| > |NormalizeBase(base)| ==> r[|NormalizeBase(base)|] != '/'
    ensures r[|NormalizeBase(base)|..] == StripLeadingSlashes(path)
  {
    NormalizeBase(base) + StripLeadingSlashes(path)
  }

  /** A run of `k` slashes. */
  function Slashes(k: nat): (r: string)
    ensures |r| == k
  {
    if k == 0 then "" else "/" + Slashes(k - 1)
  }

  /** Any run of leading slashes is dropped: `"///x"` and `"x"` give the same URL. */
  lemma {:induction false} AssetUrlSlashRun(base: Option<string>, path: string, k: nat)
    ensures AssetUrl(base, Slashes(k) + path) == AssetUrl(base, path)
  {
    StripSlashRun(path, k);
  }

  /** A run of `k` leading slashes is stripped whole. */
  lemma {:induction false} StripSlashRun(path: string, k: nat)
    ensures StripLeadingSlashes(Slashes(k) + path) == StripLeadingSlashes(path)
  {
    if k == 0 {
      assert Slashes(k) + path == path;
    } else {
      var tail := Slashes(k - 1) + path;
      assert Slashes(k) + path == "/" + tail;
      StripOneSlash(tail);
      StripSlashRun(path, k - 1);
    }
  }

  /** One leading slash is stripped. */
  lemma StripOneSlash(tail: string)
    ensures StripLeadingSlashes("/" + tail) == StripLeadingSlashes(tail)
  {
  }

  /** `pat` occurs in `s` starting at position `k`. */
  predicate OccursAt(s: string, pat: string, k: int) {
    0 <= k && k + |pat| <= |s| && s[k..k + |pat|] == pat
  }

  /** The first position at or after `from` where `pat` occurs, if any. */
  function FindFrom(s: string, pat: string, from: nat): (r: Option<nat>)
    ensures r.Some? ==> from <= r.value && OccursAt(s, pat, r.value)
    ensures r.Some? ==> forall k | from <= k < r.value :: !OccursAt(s, pat, k)
    ensures r.None? ==> forall k | from <= k :: !OccursAt(s, pat, k)
    decreases |s| - from
  {
    if from + |pat| > |s| then None
    else if s[from..from + |pat|] == pat then Some(from)
    else FindFrom(s, pat, from + 1)
  }

  /**
   * `s.replace(pat, rep)` with a string pattern: the first occurrence is
   * replaced, and the string is unchanged when there is none.
   */
  function ReplaceFirst(s: string, pat: string, rep: string): (r: string)
    ensures (forall k :: !OccursAt(s, pat, k)) ==> r == s
    ensures forall k | OccursAt(s, pat, k) && (forall j | 0 <= j < k :: !OccursAt(s, pat, j)) ::
      r == s[..k] + rep + s[k + |pat|..]
  {
    match FindFrom(s, pat, 0)
    case None => s
    case Some(k) => s[..k] + rep + s[k + |pat|..]
  }

  /** `/^https?:\/\//`: the source begins with `http://` or `https://` (lower case). */
  predicate IsRemote(src: string) {
    "http://" <= src || "https://" <= src
  }

  /**
   * `resolveImageSrc(src, { upscale })`: remote sources pass through, with the
   * first `w=800` turned into `w=1200` when upscaling; any other source is a
   * local asset, for which `upscale` is ignored.
   */
  function ResolveImageSrc(base: Option<string>, src: string, upscale: bool): (r: string)
    ensures IsRemote(src) && !upscale ==> r == src
    ensures IsRemote(src) && upscale ==> r == ReplaceFirst(src, ThumbWidth, FullWidth)
    ensures !IsRemote(src) ==> r == AssetUrl(base, src)
  {
    if IsRemote(src) then
      if upscale then ReplaceFirst(src, ThumbWidth, FullWidth) else src
    else AssetUrl(base, src)
  }

  /** A prefix that contains no `w` ends before any occurrence of `w=800`. */
  lemma ThumbAfterPrefix(src: string, prefix: string, k: int)
    requires prefix <= src && 'w' !in prefix
    requires OccursAt(src, ThumbWidth, k)
    ensures k >= |prefix|
  {
    assert src[k] == ThumbWidth[0];
  }

  /** Replacing text after a prefix leaves the prefix in place. */
  lemma PrefixSurvivesSplice(prefix: string, src: string, k: int, rep: string, rest: string)
    requires prefix <= src && |prefix| <= k <= |src|
    ensures prefix <= src[..k] + rep + rest
  {
  }

  /**
   * Upscaling keeps a remote source remote: `w=800` cannot overlap the
   * scheme, so the replacement happens after it.
   */
  lemma {:induction false} UpscaleKeepsScheme(base: Option<string>, src: string)
    requires IsRemote(src)
    ensures IsRemote(ResolveImageSrc(base, src, true))
  {
    match FindFrom(src, ThumbWidth, 0)
    case None =>
    case Some(k) =>
      var scheme := if "https://" <= src then "https://" else "http://";
      ThumbAfterPrefix(src, scheme, k);
      PrefixSurvivesSplice(scheme, src, k, FullWidth, src[k + |ThumbWidth|..]);
  }
}

=== FILE: catalog.dfy ===
/**
 * Artwork records as the gallery and the lightbox read them from the parsed
 * `artworks.json` catalog.
 */
module Catalog {
  import opened Wrappers
  import opened JsonTree

  /**
   * One catalog entry. `id`, `title`, `category` and `src` are required;
   * `medium` and `details` are shown when they are strings, and `grayscale`
   * is read for its truthiness.
   */
  datatype Artwork = Artwork(
    id: real,
    title: string,
    category: string,
    src: string,
    medium: Option<string>,
    details: Option<string>,
    grayscale: bool)

  /** The string under `key` of an object, if there is one. */
  function StringField(j: Json, key: string): Option<string> {
    var v := Lookup(Some(j), key);
    if v.Some? && v.value.JStr? then Some(v.value.str) else None
  }

  /** Reads one entry; absent when a required field is missing or mistyped. */
  function DecodeArtwork(j: Json): (r: Option<Artwork>)
    ensures r.Some? <==>
      && HasOwn(Some(j), "id") && j.fields["id"].JNum?
      && StringField(j, "title").Some?
      && StringField(j, "category").Some?
      && StringField(j, "src").Some?
    ensures r.Some? ==>
      && Some(r.value.title) == StringField(j, "title")
      && Some(r.value.category) == StringField(j, "category")
      && Some(r.value.src) == StringField(j, "src")
      && r.value.id == j.fields["id"].num
  {
    var id := Lookup(Some(j), "id");
    var title := StringField(j, "title");
    var category := StringField(j, "category");
    var src := StringField(j, "src");
    if id.Some? && id.value.JNum? && title.Some? && category.Some? && src.Some? then
      var gray := Lookup(Some(j), "grayscale");
      Some(Artwork(id.value.num, title.value, category.value, src.value,
                   StringField(j, "medium"), StringField(j, "details"),
                   gray.Some? && Truthy(gray.value)))
    else
      None
  }

  /** Reads every entry of a catalog array, failing if any entry fails. */
  function DecodeAll(items: seq<Json>): (r: Option<seq<Artwork>>)
    ensures r.Some? <==> forall i :: 0 <= i < |items| ==> DecodeArtwork(items[i]).Some?
    ensures r.Some? ==> |r.value| == |items|
    ensures r.Some? ==> forall i :: 0 <= i < |items| ==> Some(r.value[i]) == DecodeArtwork(items[i])
  {
    if items == [] then Some([])
    else
      var head := DecodeArtwork(items[0]);
      var tail := DecodeAll(items[1..]);
      if head.Some? && tail.Some? then
        assert forall i :: 1 <= i < |items| ==> items[i] == items[1..][i - 1];
        Some([head.value] + tail.value)
      else
        assert forall i :: 1 <= i < |items| ==> items[i] == items[1..][i - 1];
        None
  }
}

=== FILE: contact.dfy ===
/**
 * The contact form's checks in the application component (src/App.jsx):
 * field validation and the order of the gates a submission passes before
 * it is sent.
 */
module ContactForm {
  import opened Wrappers

  /**
   * The characters `String.prototype.trim` removes and `\s` matches: the
   * ECMAScript WhiteSpace and LineTerminator code points.
   */
  predicate IsSpace(c: char) {
    var n := c as int;
    || 0x09 <= n <= 0x0D
    || n == 0x20 || n == 0xA0 || n == 0x1680
    || 0x2000 <= n <= 0x200A
    || n == 0x2028 || n == 0x2029 || n == 0x202F || n == 0x205F
    || n == 0x3000 || n == 0xFEFF
  }

  predicate AllSpace(s: string) {
    forall i | 0 <= i < |s| :: IsSpace(s[i])
  }

  /** The string without its leading white space. */
  function TrimStart(s: string): (r: string)
    ensures |r| <= |s| && r == s[|s| - |r|..]
    ensures forall i | 0 <= i < |s| - |r| :: IsSpace(s[i])
    ensures r == [] || !IsSpace(r[0])
  {
    if s != [] && IsSpace(s[0]) then
      var r := TrimStart(s[1..]);
      assert forall i | 1 <= i < |s| :: s[i] == s[1..][i - 1];
      r
    else s
  }

  /** The string without its trailing white space. */
  function TrimEnd(s: string): (r: string)
    ensures |r| <= |s| && r == s[..|r|]
    ensures forall i | |r| <= i < |s| :: IsSpace(s[i])
    ensures r == [] || !IsSpace(r[|r| - 1])
  {
    if s != [] && IsSpace(s[|s| - 1]) then TrimEnd(s[..|s| - 1]) else s
  }

  /** `s.trim()`. */
  function Trim(s: string): (r: string)
    ensures r == [] || (!IsSpace(r[0]) && !IsSpace(r[|r| - 1]))
    ensures |r| <= |s|
    // What is removed is white space on either side of a contiguous slice.
    ensures exists i | 0 <= i <= |s| - |r| ::
      r == s[i..i + |r|] && AllSpace(s[..i]) && AllSpace(s[i + |r|..])
  {
    var t := TrimStart(s);
    var r := TrimEnd(t);
    var i := |s| - |t|;
    LeadingSpace(s);
    TrailingSpace(t);
    assert t[|r|..] == s[i + |r|..];
    r
  }

  /** What `TrimStart` drops is white space. */
  lemma LeadingSpace(s: string)
    ensures AllSpace(s[..|s| - |TrimStart(s)|])
  {
    var n := |s| - |TrimStart(s)|;
    assert forall j | 0 <= j < n :: s[..n][j] == s[j];
  }

  /** What `TrimEnd` drops is white space. */
  lemma TrailingSpace(s: string)
    ensures AllSpace(s[|TrimEnd(s)|..])
  {
    var tail := s[|TrimEnd(s)|..];
    assert forall j | 0 <= j < |tail| :: tail[j] == s[|TrimEnd(s)| + j];
  }

  /** `!s.trim()`: the field is empty after trimming exactly when it is all white space. */
  lemma {:induction false} TrimEmptyIffBlank(s: string)
    ensures Trim(s) == [] <==> AllSpace(s)
  {
  }

  /** A character `[^\s@]` accepts. */
  predicate Plain(c: char) {
    !IsSpace(c) && c != '@'
  }

  /**
   * `^[^\s@]+@[^\s@]+\.[^\s@]+$` matched with the `@` at `at` and the `.` at
   * `dot`: both parts around the `@` non-empty, a `.` inside the domain with
   * something on each side, and every other character plain.
   */
  predicate EmailSplit(s: string, at: int, dot: int) {
    && 0 < at && at + 1 < dot && dot + 1 < |s|
    && s[at] == '@' && s[dot] == '.'
    && forall k | 0 <= k < |s| && k != at :: Plain(s[k])
  }

  /** The email pattern matches `s`. */
  ghost predicate EmailPattern(s: string) {
    exists at, dot :: EmailSplit(s, at, dot)
  }

  /**
   * The pattern test as one scan: no white space, exactly one `@` and not
   * first, then a `.` strictly inside the part after the `@`.
   */
  method MatchesEmail(s: string) returns (ok: bool)
    ensures ok <==> EmailPattern(s)
  {
    var at := -1;
    var i := 0;
    while i < |s|
      invariant 0 <= i <= |s|
      invariant -1 <= at < i
      invariant forall k | 0 <= k < i && k != at :: Plain(s[k])
      invariant at >= 0 ==> s[at] == '@'
    {
      if IsSpace(s[i]) {
        assert forall a, d | EmailSplit(s, a, d) :: a == i || Plain(s[i]);
        return false;
      }
      if s[i] == '@' {
        if at >= 0 {
          assert forall a, d | EmailSplit(s, a, d) :: a == at || a == i;
          return false;
        }
        at := i;
      }
      i := i + 1;
    }
    if at <= 0 {
      if at == 0 {
        assert forall a, d | EmailSplit(s, a, d) :: a == 0;
      } else {
        assert forall a, d | EmailSplit(s, a, d) :: !Plain(s[a]);
      }
      return false;
    }
    var d := at + 2;
    while d < |s| - 1
      invariant at + 2 <= d
      invariant forall k | at + 2 <= k < d && k < |s| :: s[k] != '.'
    {
      if s[d] == '.' {
        assert EmailSplit(s, at, d);
        return true;
      }
      d := d + 1;
    }
    assert forall a, dd | EmailSplit(s, a, dd) :: a == at;
    ok := false;
  }

  /** The fields of the form; `topic` is a choice and is never validated. */
  datatype Field = Name | Email | Topic | Message

  /** The message keys the form shows for failed checks. */
  datatype ErrorKind = NameRequired | EmailRequired | EmailInvalid | MessageRequired | CaptchaRequired

  datatype FormData = FormData(name: string, email: string, topic: string, message: string)

  /**
   * `errors` is what `validateForm` must report for `data`: a required
   * message for a blank name or message, for a blank email `EmailRequired`,
   * for a non-blank email failing the pattern `EmailInvalid`, and nothing
   * else (the topic in particular is never checked).
   */
  ghost predicate ReportsFor(data: FormData, errors: map<Field, ErrorKind>) {
    && Topic !in errors
    && (Name in errors <==> AllSpace(data.name))
    && (Message in errors <==> AllSpace(data.message))
    && (Email in errors <==> AllSpace(data.email) || !EmailPattern(Trim(data.email)))
    && (Name in errors ==> errors[Name] == NameRequired)
    && (Message in errors ==> errors[Message] == MessageRequired)
    && (Email in errors ==> errors[Email] == if AllSpace(data.email) then EmailRequired else EmailInvalid)
  }

  /** The email field's error, if any: required when blank, invalid when not matching. */
  method CheckEmail(email: string) returns (e: Option<ErrorKind>)
    ensures e.None? <==> !AllSpace(email) && EmailPattern(Trim(email))
    ensures e.Some? ==> e.value == if AllSpace(email) then EmailRequired else EmailInvalid
  {
    TrimEmptyIffBlank(email);
    if Trim(email) == [] {
      return Some(EmailRequired);
    }
    var matches := MatchesEmail(Trim(email));
    e := if matches then None else Some(EmailInvalid);
  }

  /** Gathers the per-field results into the error object. */
  function CollectErrors(nameBlank: bool, emailError: Option<ErrorKind>, messageBlank: bool)
    : (errors: map<Field, ErrorKind>)
    ensures Topic !in errors
    ensures Name in errors <==> nameBlank
    ensures Email in errors <==> emailError.Some?
    ensures Message in errors <==> messageBlank
    ensures Name in errors ==> errors[Name] == NameRequired
    ensures Email in errors ==> errors[Email] == emailError.value
    ensures Message in errors ==> errors[Message] == MessageRequired
  {
    (if nameBlank then map[Name := NameRequired] else map[])
    + (if emailError.Some? then map[Email := emailError.value] else map[])
    + (if messageBlank then map[Message := MessageRequired] else map[])
  }

  /** `validateForm(data)`, trimming each field before checking it. */
  method ValidateForm(data: FormData) returns (errors: map<Field, ErrorKind>)
    ensures ReportsFor(data, errors)
  {
    TrimEmptyIffBlank(data.name);
    TrimEmptyIffBlank(data.message);
    var emailError := CheckEmail(data.email);
    errors := CollectErrors(Trim(data.name) == [], emailError, Trim(data.message) == []);
  }

  /** The submission status; `Misconfigured` is the error status with that message. */
  datatype Status = Idle | Misconfigured | Submitting

  /** What `handleSubmit` leaves behind before any network traffic. */
  datatype SubmitState = SubmitState(
    errors: map<Field, ErrorKind>,
    touched: set<Field>,
    status: Status,
    captchaError: Option<ErrorKind>)

  /** The default keys the build falls back on. */
  const DefaultAccessKey: string := "17e9fbc8-bee6-47c3-88a8-4121afd5a48b"
  const DefaultSiteKey: string := "50b2fe65-b00b-4b9e-ad62-3ba471098be2"

  /** `import.meta.env.KEY || fallback`: an unset or empty variable gives the fallback. */
  function ResolveKey(env: Option<string>, fallback: string): (r: string)
    ensures r == fallback || Some(r) == env
    ensures fallback != "" ==> r != ""
    ensures env.Some? && env.value != "" ==> r == env.value
    ensures env.None? || env.value == "" ==> r == fallback
  {
    if env.Some? && env.value != "" then env.value else fallback
  }

  /**
   * The gating prefix of `handleSubmit`: validate, mark every field touched,
   * reset status and captcha message; then stop at the first of: validation
   * errors, a missing key, a missing captcha token; otherwise start sending.
   */
  method HandleSubmit(data: FormData, accessKey: string, siteKey: string, captchaToken: string)
    returns (s: SubmitState)
    ensures s.touched == {Name, Email, Topic, Message}
    ensures ReportsFor(data, s.errors)
    ensures s.status == Submitting <==>
      s.errors == map[] && accessKey != "" && siteKey != "" && captchaToken != ""
    ensures s.errors != map[] ==> s.status == Idle && s.captchaError == None
    ensures s.status == Misconfigured <==> s.errors == map[] && (accessKey == "" || siteKey == "")
    ensures s.captchaError.Some? <==>
      s.errors == map[] && accessKey != "" && siteKey != "" && captchaToken == ""
    ensures s.captchaError.Some? ==> s.captchaError == Some(CaptchaRequired) && s.status == Idle
  {
    var validation := ValidateForm(data);
    s := SubmitState(validation, {Name, Email, Topic, Message}, Idle, None);
    if validation != map[] {
      return;
    }
    if accessKey == "" || siteKey == "" {
      s := s.(status := Misconfigured);
      return;
    }
    if captchaToken == "" {
      s := s.(captchaError := Some(CaptchaRequired));
      return;
    }
    s := s.(status := Submitting);
  }

  /** With the built-in fallbacks neither key can be empty, so the misconfigured branch is dead. */
  lemma KeysAlwaysConfigured(accessEnv: Option<string>, siteEnv: Option<string>)
    ensures ResolveKey(accessEnv, DefaultAccessKey) != ""
    ensures ResolveKey(siteEnv, DefaultSiteKey) != ""
  {
  }
}

=== FILE: dimensions.dfy ===
/** Gallery item dimensions with a default (src/utils/galleryDimensions.js). */
module GalleryDimensions {

  datatype Dimensions = Dimensions(width: int, height: int)

  /** `FALLBACK_DIMENSIONS`: 1600 wide by 2000 high. */
  const FallbackDimensions: Dimensions := Dimensions(1600, 2000)

  /**
   * `getItemDimensions(map, artId)`: the entry for `artId` as stored, or the
   * fallback when there is none. Entries are objects, so always truthy.
   */
  function GetItemDimensions<K>(dimensionsMap: map<K, Dimensions>, artId: K): (r: Dimensions)
    ensures artId in dimensionsMap ==> r == dimensionsMap[artId]
    ensures artId !in dimensionsMap ==> r == FallbackDimensions
  {
    if artId in dimensionsMap then dimensionsMap[artId] else FallbackDimensions
  }

  /** Only the entry for `artId` matters: maps that agree on it give the same answer. */
  lemma LookupIsLocal<K>(m1: map<K, Dimensions>, m2: map<K, Dimensions>, artId: K)
    requires artId in m1 <==> artId in m2
    requires artId in m1 ==> m1[artId] == m2[artId]
    ensures GetItemDimensions(m1, artId) == GetItemDimensions(m2, artId)
  {
  }

  /** The two cases the unit test exercises. */
  lemma DimensionsExamples()
    ensures GetItemDimensions(map[1 := Dimensions(800, 600)], 1) == Dimensions(800, 600)
    ensures GetItemDimensions(map[], 99) == Dimensions(1600, 2000)
  {
  }
}

=== FILE: gallery.dfy ===
/**
 * The gallery state kept by the application component (src/App.jsx): the
 * category filter, the custom lightbox's open flag, current index and body
 * scroll lock, its keyboard mapping, and the language cycle.
 */
module Gallery {
  import opened Catalog

  /** The pseudo-category that shows every artwork. */
  const AllFilter: string := "all"

  /** The languages the language button cycles through, in order. */
  const SupportedLangs: seq<string> := ["en", "ru", "he"]

  /** Whether an artwork is listed under the active filter. */
  predicate Listed(filter: string, art: Artwork) {
    filter == AllFilter || art.category == filter
  }

  /** `filteredArtworks`: the artworks the filter lists, in catalog order. */
  function FilteredArtworks(artworks: seq<Artwork>, filter: string): (r: seq<Artwork>)
    ensures |r| <= |artworks|
    ensures forall a :: a in r <==> a in artworks && Listed(filter, a)
  {
    if artworks == [] then []
    else
      var rest := FilteredArtworks(artworks[1..], filter);
      assert forall a :: a in artworks <==> a == artworks[0] || a in artworks[1..];
      if Listed(filter, artworks[0]) then [artworks[0]] + rest else rest
  }

  /** Filtering distributes over concatenation, so catalog order is kept. */
  lemma {:induction false} FilterConcat(left: seq<Artwork>, right: seq<Artwork>, filter: string)
    ensures FilteredArtworks(left + right, filter)
         == FilteredArtworks(left, filter) + FilteredArtworks(right, filter)
    decreases |left|
  {
    if left == [] {
      assert left + right == right;
    } else {
      assert (left + right)[0] == left[0];
      assert (left + right)[1..] == left[1..] + right;
      FilterConcat(left[1..], right, filter);
    }
  }

  /** The `'all'` filter lists the whole catalog unchanged. */
  lemma {:induction false} FilterAllIsIdentity(artworks: seq<Artwork>)
    ensures FilteredArtworks(artworks, AllFilter) == artworks
    decreases |artworks|
  {
    if artworks != [] {
      FilterAllIsIdentity(artworks[1..]);
      assert artworks == [artworks[0]] + artworks[1..];
    }
  }

  /** Any other filter lists only artworks whose category equals it. */
  lemma FilterByCategory(artworks: seq<Artwork>, filter: string)
    requires filter != AllFilter
    ensures forall i | 0 <= i < |FilteredArtworks(artworks, filter)| ::
      FilteredArtworks(artworks, filter)[i].category == filter
  {
  }

  /**
   * The lightbox state: whether it is open, the index it shows, and whether
   * the page body's scrolling is switched off (`overflow: hidden`).
   */
  datatype Viewer = Viewer(open: bool, index: int, scrollLocked: bool)

  /** The state at start-up: closed, index 0, page scrollable. */
  const Initial: Viewer := Viewer(false, 0, false)

  /** JavaScript's `%`: the remainder takes the sign of the dividend. */
  function JsRem(a: int, n: int): (r: int)
    requires n > 0
    ensures -n < r < n
    ensures a >= 0 ==> r == a % n
    ensures a <= 0 ==> r <= 0
    ensures (a - r) % n == 0
  {
    if a >= 0 then
      var q := a / n;
      assert a - a % n == q * n;
      MultipleRem(q, n);
      a % n
    else
      var q := (-a) / n;
      assert -a == q * n + (-a) % n;
      assert a + (-a) % n == (-q) * n;
      MultipleRem(-q, n);
      -((-a) % n)
  }

  /** The only multiple of a positive `n` strictly between `-n` and `n` is zero. */
  lemma SmallMultiple(k: int, n: int)
    requires n > 0 && -n < k * n < n
    ensures k == 0
  {
  }

  /** A multiple of a positive `n` leaves no Euclidean remainder. */
  lemma MultipleRem(q: int, n: int)
    requires n > 0
    ensures (q * n) % n == 0
  {
    var d, m := (q * n) / n, (q * n) % n;
    assert q * n == d * n + m;
    assert (q - d) * n == m;
    SmallMultiple(q - d, n);
  }

  /** `openLightbox(index)`: ignored on an empty view, no bounds check otherwise. */
  function OpenLightbox(v: Viewer, count: nat, index: int): (r: Viewer)
    ensures count == 0 ==> r == v
    ensures count > 0 ==> r.open && r.scrollLocked && r.index == index
  {
    if count == 0 then v else Viewer(true, index, true)
  }

  /** `closeLightbox()`: closes, unlocks scrolling, keeps the index. */
  function CloseLightbox(v: Viewer): (r: Viewer)
    ensures !r.open && !r.scrollLocked && r.index == v.index
  {
    v.(open := false, scrollLocked := false)
  }

  /** `nextImage()`: the following artwork, wrapping from the last to the first. */
  function NextImage(v: Viewer, count: nat): (r: Viewer)
    ensures r.open == v.open && r.scrollLocked == v.scrollLocked
    ensures count == 0 ==> r == v
    ensures count > 0 && v.index >= -1 ==> 0 <= r.index < count
    ensures count > 0 && 0 <= v.index < count ==>
      r.index == if v.index == count - 1 then 0 else v.index + 1
  {
    if count == 0 then v else v.(index := JsRem(v.index + 1, count))
  }

  /** `prevImage()`: the preceding artwork, wrapping from the first to the last. */
  function PrevImage(v: Viewer, count: nat): (r: Viewer)
    ensures r.open == v.open && r.scrollLocked == v.scrollLocked
    ensures count == 0 ==> r == v
    ensures count > 0 && v.index >= 1 - count ==> 0 <= r.index < count
    ensures count > 0 && 0 <= v.index < count ==>
      r.index == if v.index == 0 then count - 1 else v.index - 1
  {
    if count == 0 then v else v.(index := JsRem(v.index - 1 + count, count))
  }

  /** The index points at an artwork of a view of `count` artworks. */
  predicate InRange(v: Viewer, count: nat) {
    0 <= v.index < count
  }

  /** Within range, going back undoes going forward and forward undoes back. */
  lemma NextPrevRoundTrip(v: Viewer, count: nat)
    requires InRange(v, count)
    ensures PrevImage(NextImage(v, count), count) == v
    ensures NextImage(PrevImage(v, count), count) == v
  {
  }

  /** `nextImage()` applied `k` times. */
  function NextTimes(v: Viewer, count: nat, k: nat): (r: Viewer)
    ensures r.open == v.open && r.scrollLocked == v.scrollLocked
  {
    if k == 0 then v else NextImage(NextTimes(v, count, k - 1), count)
  }

  /** Up to a full round, `k` steps forward land `k` places on, wrapping past the end once. */
  lemma {:induction false} NextTimesIndex(v: Viewer, count: nat, k: nat)
    requires InRange(v, count)
    requires k <= count
    ensures NextTimes(v, count, k).index
         == if v.index + k < count then v.index + k else v.index + k - count
  {
    if k > 0 {
      NextTimesIndex(v, count, k - 1);
    }
  }

  /** Stepping forward once per artwork comes back to the starting artwork. */
  lemma NextCycle(v: Viewer, count: nat)
    requires InRange(v, count)
    ensures NextTimes(v, count, count) == v
  {
    NextTimesIndex(v, count, count);
  }

  /** `isRTL`: Hebrew is the one right-to-left language. */
  predicate IsRTL(lang: string) {
    lang == "he"
  }

  /**
   * The keydown listener, installed only while the lightbox is open: Escape
   * closes; ArrowLeft goes back and ArrowRight forward, mirrored in
   * right-to-left layout; every other key is ignored.
   */
  function KeyDown(v: Viewer, count: nat, key: string, rtl: bool): (r: Viewer)
    ensures !v.open ==> r == v
    ensures key != "Escape" && key != "ArrowLeft" && key != "ArrowRight" ==> r == v
    ensures v.open && key == "Escape" ==> r == CloseLightbox(v)
    ensures v.open && key == "ArrowLeft" ==> r == if rtl then NextImage(v, count) else PrevImage(v, count)
    ensures v.open && key == "ArrowRight" ==> r == if rtl then PrevImage(v, count) else NextImage(v, count)
  {
    if !v.open then v
    else if key == "Escape" then CloseLightbox(v)
    else if key == "ArrowLeft" then (if rtl then NextImage(v, count) else PrevImage(v, count))
    else if key == "ArrowRight" then (if rtl then PrevImage(v, count) else NextImage(v, count))
    else v
  }

  /** Right-to-left swaps the two arrows and changes nothing else. */
  lemma KeyDownMirror(v: Viewer, count: nat)
    ensures KeyDown(v, count, "ArrowLeft", true) == KeyDown(v, count, "ArrowRight", false)
    ensures KeyDown(v, count, "ArrowRight", true) == KeyDown(v, count, "ArrowLeft", false)
  {
  }

  /** No key takes an index in range out of range, and the opposite arrow undoes an arrow. */
  lemma KeyDownInRange(v: Viewer, count: nat, key: string, rtl: bool)
    requires InRange(v, count)
    ensures InRange(KeyDown(v, count, key, rtl), count)
    ensures v.open ==> KeyDown(KeyDown(v, count, "ArrowLeft", rtl), count, "ArrowRight", rtl) == v
  {
  }

  /** Page scrolling is locked exactly while the lightbox is open. */
  predicate ScrollLockFollowsOpen(v: Viewer) {
    v.scrollLocked == v.open
  }

  /** Every lightbox transition keeps the scroll lock in step with the open flag. */
  lemma TransitionsKeepScrollLock(v: Viewer, count: nat, index: int, key: string, rtl: bool)
    requires ScrollLockFollowsOpen(v)
    ensures ScrollLockFollowsOpen(Initial)
    ensures ScrollLockFollowsOpen(OpenLightbox(v, count, index))
    ensures ScrollLockFollowsOpen(CloseLightbox(v))
    ensures ScrollLockFollowsOpen(NextImage(v, count))
    ensures ScrollLockFollowsOpen(PrevImage(v, count))
    ensures ScrollLockFollowsOpen(KeyDown(v, count, key, rtl))
  {
  }

  /** `toggleLang()`: English, then Russian, then Hebrew, then English again. */
  function ToggleLang(lang: string): (r: string)
    ensures r in SupportedLangs
    ensures lang !in SupportedLangs ==> r == "en"
    ensures forall i {:trigger SupportedLangs[i]} | 0 <= i < |SupportedLangs| && lang == SupportedLangs[i] ::
      r == SupportedLangs[(i + 1) % |SupportedLangs|]
  {
    if lang == "en" then "ru"
    else if lang == "ru" then "he"
    else "en"
  }

  /** Three presses bring every supported language back, passing through the other two. */
  lemma ToggleLangCycle(lang: string)
    requires lang in SupportedLangs
    ensures ToggleLang(ToggleLang(ToggleLang(lang))) == lang
    ensures ToggleLang(lang) != lang && ToggleLang(ToggleLang(lang)) != lang
  {
  }
}

=== FILE: i18n.dfy ===
/**
 * The locale fallback merge of src/utils/i18n.js: a target-language
 * dictionary is laid over the English one, which supplies the structure.
 */
module I18n {
  import opened Wrappers
  import opened JsonTree

  /**
   * The rule the merge applies where the base holds a non-object: an array
   * is replaced only by an array (arrays are atomic), any other value is
   * replaced by an override that is present and not null (`override ?? base`).
   */
  function MergeLeaf(base: Json, override: Option<Json>): (r: Json)
    requires !base.JObj?
    ensures r == base || Some(r) == override
    ensures base.JArr? ==> r.JArr?
    ensures override == None || override == Some(JNull) ==> r == base
    ensures base.JArr? && override.Some? && override.value.JArr? ==> r == override.value
    ensures !base.JArr? && override.Some? && !override.value.JNull? ==> r == override.value
  {
    if base.JArr? then
      if override.Some? && override.value.JArr? then override.value else base
    else if override.Some? && !override.value.JNull? then override.value
    else base
  }

  /**
   * `mergeWithFallback(base, override)`: objects keep exactly the base's
   * keys, each child merged with the override's child under the same key;
   * recursion descends only into the base, so it ends on every finite base.
   */
  function MergeWithFallback(base: Json, override: Option<Json>): (r: Json)
    ensures base.JObj? ==> r.JObj? && r.fields.Keys == base.fields.Keys
    ensures base.JArr? ==> r.JArr?
    ensures override == None ==> r == base
  {
    match base
    case JObj(f) => JObj(map k | k in f :: MergeWithFallback(f[k], Lookup(override, k)))
    case _ => MergeLeaf(base, override)
  }

  /** Merging a dictionary with itself gives it back: the English-only load path. */
  lemma {:induction false} MergeSelf(base: Json)
    ensures MergeWithFallback(base, Some(base)) == base
  {
    match base
    case JObj(f) =>
      forall k | k in f
        ensures MergeWithFallback(f[k], Lookup(Some(base), k)) == f[k]
      {
        MergeSelf(f[k]);
      }
    case _ =>
  }

  /** Merging the same override a second time changes nothing. */
  lemma {:induction false} MergeIdempotent(base: Json, override: Option<Json>)
    ensures MergeWithFallback(MergeWithFallback(base, override), override)
         == MergeWithFallback(base, override)
  {
    var r := MergeWithFallback(base, override);
    match base
    case JObj(f) =>
      forall k | k in f
        ensures MergeWithFallback(r.fields[k], Lookup(override, k)) == r.fields[k]
      {
        MergeIdempotent(f[k], Lookup(override, k));
      }
    case _ =>
      if r != base {
        MergeSelf(r);
      }
  }

  /**
   * The merge, seen path by path: wherever the base has an object the result
   * has an object with the same keys, and wherever the base has any other
   * value the result holds the leaf rule applied to that value and to the
   * override's value at the same path.
   */
  lemma {:induction false} MergeAlongPath(base: Json, override: Option<Json>, path: seq<string>)
    requires Walk(Some(base), path).Some?
    ensures var b := Walk(Some(base), path).value;
            var r := Walk(Some(MergeWithFallback(base, override)), path);
            if b.JObj? then r.Some? && r.value.JObj? && r.value.fields.Keys == b.fields.Keys
            else r == Some(MergeLeaf(b, Walk(override, path)))
    decreases |path|
  {
    if path != [] {
      var k := path[0];
      if !Lookup(Some(base), k).Some? {
        WalkAbsent(path[1..]);
      }
      var child := base.fields[k];
      assert Lookup(Some(MergeWithFallback(base, override)), k)
          == Some(MergeWithFallback(child, Lookup(override, k)));
      MergeAlongPath(child, Lookup(override, k), path[1..]);
    }
  }

  /** The worked example: nested keys fall back, arrays are replaced whole. */
  lemma MergeExample()
    ensures
      var en := JObj(map["a" := JObj(map["b" := JStr("X"), "c" := JStr("Y")]),
                         "d" := JArr([JStr("1"), JStr("2")])]);
      var ru := JObj(map["a" := JObj(map["b" := JStr("Ы")]),
                         "d" := JArr([JStr("один")])]);
      MergeWithFallback(en, Some(ru))
        == JObj(map["a" := JObj(map["b" := JStr("Ы"), "c" := JStr("Y")]),
                    "d" := JArr([JStr("один")])])
  {
    var en := JObj(map["a" := JObj(map["b" := JStr("X"), "c" := JStr("Y")]),
                       "d" := JArr([JStr("1"), JStr("2")])]);
    var ru := JObj(map["a" := JObj(map["b" := JStr("Ы")]),
                       "d" := JArr([JStr("один")])]);
    var a := MergeWithFallback(en.fields["a"], Lookup(Some(ru), "a"));
    assert a == JObj(map["b" := JStr("Ы"), "c" := JStr("Y")]);
  }
}

=== FILE: json.dfy ===
/**
 * Parsed JSON documents, as the locale dictionaries and the artwork catalog
 * arrive from `JSON.parse`. Objects are maps from keys to children, so key
 * order (the order of `Object.keys`) is not represented.
 */
module JsonTree {
  import opened Wrappers

  datatype Json =
    | JObj(fields: map<string, Json>)
    | JArr(items: seq<Json>)
    | JStr(str: string)
    | JNum(num: real)
    | JBool(flag: bool)
    | JNull

  /** JavaScript truthiness of a JSON value (`if (v)`, `v || w`). */
  predicate Truthy(j: Json) {
    match j
    case JObj(_) => true
    case JArr(_) => true
    case JStr(s) => s != ""
    case JNum(n) => n != 0.0
    case JBool(b) => b
    case JNull => false
  }

  /** `Object.prototype.hasOwnProperty.call(o, key)` on a present object. */
  predicate HasOwn(o: Option<Json>, key: string) {
    o.Some? && o.value.JObj? && key in o.value.fields
  }

  /**
   * Optional member access `o?.[key]`: the child under `key` when `o` is an
   * object holding it, absent otherwise (an absent, null or non-object `o`
   * yields absent).
   */
  function Lookup(o: Option<Json>, key: string): (r: Option<Json>)
    ensures r.Some? <==> HasOwn(o, key)
    ensures r.Some? ==> r.value == o.value.fields[key]
  {
    if HasOwn(o, key) then Some(o.value.fields[key]) else None
  }

  /** Follows a path of keys through nested objects (`o?.[k1]?.[k2]...`). */
  function Walk(o: Option<Json>, path: seq<string>): Option<Json>
    decreases |path|
  {
    if path == [] then o else Walk(Lookup(o, path[0]), path[1..])
  }

  /** Nothing is reached from an absent value, whatever the path. */
  lemma {:induction false} WalkAbsent(path: seq<string>)
    ensures Walk(None, path) == None
    decreases |path|
  {
    if path != [] {
      WalkAbsent(path[1..]);
    }
  }
}

=== FILE: lightbox.dfy ===
/**
 * The custom lightbox component (src/components/Lightbox.jsx): what it shows
 * for a lightbox state, and what its buttons and backdrop do. (The gallery
 * grid opens its own image viewer; nothing in the page passes a gallery click
 * to `openLightbox`.)
 */
module Lightbox {
  import opened Wrappers
  import opened Catalog
  import opened Gallery
  import Assets

  /**
   * What is on screen: nothing, or an artwork with the resolved full-size
   * image source. `Broken` is the render that reads `.src` of a missing
   * array element (an index outside the view), which throws.
   */
  datatype Frame = Hidden | Showing(artwork: Artwork, imageSrc: string) | Broken

  /** Renders the lightbox for a state and the filtered view. */
  function Render(v: Viewer, view: seq<Artwork>, base: Option<string>): (r: Frame)
    ensures !v.open || |view| == 0 <==> r == Hidden
    ensures r.Broken? <==> v.open && |view| > 0 && !InRange(v, |view|)
    ensures r.Showing? ==> r.artwork == view[v.index]
    ensures r.Showing? ==> r.imageSrc == Assets.ResolveImageSrc(base, r.artwork.src, true)
  {
    if !v.open || |view| == 0 then Hidden
    else if 0 <= v.index < |view| then
      Showing(view[v.index], Assets.ResolveImageSrc(base, view[v.index].src, true))
    else Broken
  }

  /** The elements of the lightbox a click can land on. */
  datatype Target = Backdrop | CloseButton | LeftChevron | RightChevron | Panel

  /**
   * A click: the target's own handler runs, then the click bubbles to the
   * backdrop (which closes) unless the handler stopped it. The chevrons call
   * `nextImage`/`prevImage`, which stop propagation; the panel only stops it.
   */
  function Click(v: Viewer, count: nat, target: Target, rtl: bool): (r: Viewer)
    ensures target == Backdrop || target == CloseButton ==> r == CloseLightbox(v)
    ensures target == Panel ==> r == v
    ensures target == LeftChevron ==> r == if rtl then NextImage(v, count) else PrevImage(v, count)
    ensures target == RightChevron ==> r == if rtl then PrevImage(v, count) else NextImage(v, count)
  {
    var (handled, stopped) :=
      match target
      case Backdrop => (v, false)
      case CloseButton => (CloseLightbox(v), false)
      case LeftChevron => (if rtl then NextImage(v, count) else PrevImage(v, count), true)
      case RightChevron => (if rtl then PrevImage(v, count) else NextImage(v, count), true)
      case Panel => (v, true);
    if stopped then handled else CloseLightbox(handled)
  }

  /** Each chevron does what the arrow key on the same side does. */
  lemma ChevronsMatchArrows(v: Viewer, count: nat, rtl: bool)
    requires v.open
    ensures Click(v, count, LeftChevron, rtl) == KeyDown(v, count, "ArrowLeft", rtl)
    ensures Click(v, count, RightChevron, rtl) == KeyDown(v, count, "ArrowRight", rtl)
  {
  }

  /**
   * The part of the application component's state the lightbox depends on:
   * the loaded artworks, the active filter, the language, the lightbox state,
   * and the view length the installed keydown listener was created with. The
   * listener is installed when the lightbox opens or the direction changes
   * while it is open, and it keeps that render's `nextImage`/`prevImage`, so
   * the arrow keys use `keyCount` while the chevrons use the current view.
   */
  datatype Page = Page(artworks: seq<Artwork>, filter: string, lang: string, viewer: Viewer, keyCount: nat)

  /** The artworks on show under the active filter. */
  function View(p: Page): seq<Artwork> {
    FilteredArtworks(p.artworks, p.filter)
  }

  /** What the user does while the page is up. */
  datatype Event = Open(index: int) | Press(key: string) | Tap(target: Target) | SetFilter(filter: string) | SwitchLang

  /**
   * One event: opening goes through `openLightbox`, keys reach the listener
   * only while the lightbox is open, taps need the lightbox on screen, a
   * filter button only changes the filter, and the language button cycles
   * the language.
   */
  function Step(p: Page, e: Event): (r: Page)
    ensures r.artworks == p.artworks
    ensures !e.SetFilter? ==> r.filter == p.filter
    ensures !e.SwitchLang? ==> r.lang == p.lang
    ensures e.Press? ==> r.viewer == KeyDown(p.viewer, p.keyCount, e.key, IsRTL(p.lang))
    ensures e.Tap? && p.viewer.open && |View(p)| > 0 ==> r.viewer == Click(p.viewer, |View(p)|, e.target, IsRTL(p.lang))
    ensures e.SetFilter? ==> r == p.(filter := e.filter)
    ensures e.SwitchLang? ==> r.lang == ToggleLang(p.lang) && r.viewer == p.viewer
    // A listener is (re)installed, with the current view's length, exactly when the
    // lightbox opens or the direction flips while it is open.
    ensures r.keyCount != p.keyCount ==> r.viewer.open && r.keyCount == |View(p)|
    ensures e.Open? && !p.viewer.open && r.viewer.open ==> r.keyCount == |View(p)|
    ensures e.Open? ==> r.viewer == OpenLightbox(p.viewer, |View(p)|, e.index)
    ensures e.Press? || e.Tap? || (e.Open? && (p.viewer.open || |View(p)| == 0)) ==> r.keyCount == p.keyCount
    ensures e.SwitchLang? ==>
      r.keyCount == if p.viewer.open && IsRTL(r.lang) != IsRTL(p.lang) then |View(p)| else p.keyCount
    ensures e.Tap? && !(p.viewer.open && |View(p)| > 0) ==> r == p
  {
    match e
    case Open(i) =>
      var w := OpenLightbox(p.viewer, |View(p)|, i);
      p.(viewer := w, keyCount := if w.open && !p.viewer.open then |View(p)| else p.keyCount)
    case Press(key) => p.(viewer := KeyDown(p.viewer, p.keyCount, key, IsRTL(p.lang)))
    case Tap(target) =>
      if p.viewer.open && |View(p)| > 0 then p.(viewer := Click(p.viewer, |View(p)|, target, IsRTL(p.lang))) else p
    case SetFilter(f) => p.(filter := f)
    case SwitchLang =>
      var lang := ToggleLang(p.lang);
      var flipped := p.viewer.open && IsRTL(lang) != IsRTL(p.lang);
      p.(lang := lang, keyCount := if flipped then |View(p)| else p.keyCount)
  }

  /** The events applied in order. */
  function Run(p: Page, events: seq<Event>): Page
    decreases |events|
  {
    if events == [] then p else Run(Step(p, events[0]), events[1..])
  }

  /**
   * The arrow keys follow the language (in Hebrew the left arrow goes
   * forward) and wrap at the length the listener was installed with.
   */
  lemma ArrowsFollowLanguage(p: Page)
    requires p.viewer.open
    ensures Step(p, Press("ArrowLeft")).viewer ==
      if p.lang == "he" then NextImage(p.viewer, p.keyCount) else PrevImage(p.viewer, p.keyCount)
    ensures Step(p, Press("ArrowRight")).viewer ==
      if p.lang == "he" then PrevImage(p.viewer, p.keyCount) else NextImage(p.viewer, p.keyCount)
  {
  }

  /**
   * The state the lightbox is safe in: while open, the view is non-empty,
   * the index is inside it, and the key listener knows its length.
   */
  predicate Consistent(p: Page) {
    p.viewer.open ==> |View(p)| > 0 && InRange(p.viewer, |View(p)|) && p.keyCount == |View(p)|
  }

  /** An event that opens at an index inside the view. */
  predicate OpensInside(e: Event, count: nat) {
    e.Open? ==> 0 <= e.index < count
  }

  /** Every opening lands inside the view of its moment, and filters change only while the lightbox is closed. */
  predicate Guarded(p: Page, events: seq<Event>)
    decreases |events|
  {
    events != [] ==>
      && OpensInside(events[0], |View(p)|)
      && (events[0].SetFilter? ==> !p.viewer.open)
      && Guarded(Step(p, events[0]), events[1..])
  }

  /** One guarded event keeps the lightbox consistent. */
  lemma StepKeepsConsistent(p: Page, e: Event)
    requires Consistent(p) && OpensInside(e, |View(p)|) && (e.SetFilter? ==> !p.viewer.open)
    ensures Consistent(Step(p, e))
  {
    var q := Step(p, e);
    if q.viewer.open && !e.SetFilter? {
      assert View(q) == View(p);
      match e
      case Open(i) =>
      case Press(key) => KeyDownInRange(p.viewer, p.keyCount, key, IsRTL(p.lang));
      case Tap(target) =>
      case SwitchLang =>
    }
  }

  /**
   * Starting consistent, opening only at indices inside the view and changing
   * the filter only while the lightbox is closed, the lightbox never renders a
   * missing artwork: every frame is either hidden or an artwork of the view.
   */
  lemma {:induction false} NeverBroken(p: Page, events: seq<Event>, base: Option<string>)
    requires Consistent(p) && Guarded(p, events)
    ensures Consistent(Run(p, events))
    ensures !Render(Run(p, events).viewer, View(Run(p, events)), base).Broken?
    decreases |events|
  {
    if events != [] {
      StepKeepsConsistent(p, events[0]);
      NeverBroken(Step(p, events[0]), events[1..], base);
    }
  }

  /** A catalog entry for the worked example. */
  function Sample(id: real, category: string): Artwork {
    Artwork(id, "", category, "", None, None, false)
  }

  /** Five artworks, two of them oils (ids 1 and 3). */
  function Five(): seq<Artwork> {
    [Sample(1.0, "oil"), Sample(2.0, "sketch"), Sample(3.0, "oil"),
     Sample(4.0, "portrait"), Sample(5.0, "abstract")]
  }

  /** The "all" view of `Five` is all of it. */
  lemma FiveAll()
    ensures FilteredArtworks(Five(), AllFilter) == Five()
  {
    FilterAllIsIdentity(Five());
  }

  /** The oil view of `Five` is its first and third artworks. */
  lemma FiveOils()
    ensures FilteredArtworks(Five(), "oil") == [Five()[0], Five()[2]]
  {
    var artworks := Five();
    assert artworks[1..] == [artworks[1], artworks[2], artworks[3], artworks[4]];
    assert artworks[1..][1..] == [artworks[2], artworks[3], artworks[4]];
    assert artworks[1..][1..][1..] == [artworks[3], artworks[4]];
    assert artworks[1..][1..][1..][1..] == [artworks[4]];
  }

  /**
   * Opening the oil view at 0 shows id 1, one step forward id 3, another
   * step wraps back to id 1.
   */
  lemma OilScenario()
    ensures
      var view := FilteredArtworks(Five(), "oil");
      var first := OpenLightbox(Initial, |view|, 0);
      var once := NextImage(first, |view|);
      var twice := NextImage(once, |view|);
      && Render(first, view, None).artwork.id == 1.0
      && Render(once, view, None).artwork.id == 3.0
      && Render(twice, view, None).artwork.id == 1.0
  {
    FiveOils();
  }

  /**
   * A filter button keeps the lightbox open at its index, so the next render
   * reads a missing artwork exactly when the new view is non-empty and too
   * short for the index.
   */
  lemma FilterChangeWhileOpen(p: Page, filter: string, base: Option<string>)
    requires p.viewer.open
    ensures
      var q := Step(p, SetFilter(filter));
      var n := |FilteredArtworks(p.artworks, filter)|;
      Render(q.viewer, View(q), base).Broken? <==> n > 0 && !InRange(p.viewer, n)
  {
  }

  /**
   * When the listener was installed for a longer view than the one on show,
   * from the last artwork of the view the right arrow steps past its end
   * while the right chevron wraps to the first.
   */
  lemma ArrowsOutrunView(p: Page, base: Option<string>)
    requires p.viewer.open && p.lang != "he"
    requires 0 <= p.viewer.index && p.viewer.index + 1 == |View(p)| < p.keyCount
    ensures
      var keys := Step(p, Press("ArrowRight"));
      keys.viewer.index == |View(p)| && Render(keys.viewer, View(keys), base).Broken?
    ensures
      var clicks := Step(p, Tap(RightChevron));
      clicks.viewer.index == 0 && Render(clicks.viewer, View(clicks), base).Showing?
  {
    ArrowsFollowLanguage(p);
  }

  /**
   * Such a state is reachable: open the first of all five artworks, then
   * switch to oils. The listener still wraps at five while two are on show;
   * one right arrow puts the index on the last oil.
   */
  lemma StaleListener()
    ensures
      var p := Step(Step(Page(Five(), AllFilter, "en", Initial, 0), Open(0)), SetFilter("oil"));
      p.viewer == Viewer(true, 0, true) && p.keyCount == 5 && |View(p)| == 2
  {
    FiveAll();
    FiveOils();
  }
}

=== FILE: sanity_script.dfy ===
/**
 * The locale check script scripts/sanity-test.js, written as the sequence of
 * steps it performs: each failing `assert` stops the run.
 */
module SanityScript {
  import opened Wrappers
  import opened JsonTree
  import SanityTest

  /**
   * `compareShape(base, candidate)` of the script: walks the base's keys one
   * at a time and stops at the first missing key or mismatching child. It
   * accepts exactly what the test-suite copy accepts.
   */
  method CompareShape(base: Json, candidate: Option<Json>) returns (ok: bool)
    ensures ok <==> SanityTest.CompareShape(base, candidate)
    decreases base
  {
    match base {
      case JArr(_) =>
        ok := candidate.Some? && candidate.value.JArr?;
      case JObj(f) =>
        var pending := f.Keys;
        while pending != {}
          invariant pending <= f.Keys
          invariant forall k | k in f && k !in pending ::
            HasOwn(candidate, k) && SanityTest.CompareShape(f[k], Lookup(candidate, k))
          decreases pending
        {
          var k :| k in pending;
          if !HasOwn(candidate, k) {
            return false;
          }
          var child := CompareShape(f[k], Lookup(candidate, k));
          if !child {
            return false;
          }
          pending := pending - {k};
        }
        ok := true;
      case _ =>
        ok := candidate.Some?;
    }
  }

  /**
   * The script's main loop: for `en`, `ru` and `he` in turn, read the file
   * (a missing one fails) and compare it with English.
   */
  method CheckLocales(files: map<string, Json>) returns (ok: bool)
    ensures ok <==> SanityTest.LocalesShareShape(files)
  {
    if "en" !in files {
      return false;
    }
    var locales := SanityTest.Locales;
    var i := 0;
    while i < |locales|
      invariant 0 <= i <= |locales|
      invariant forall j | 0 <= j < i ::
        locales[j] in files && SanityTest.CompareShape(files["en"], Some(files[locales[j]]))
    {
      if locales[i] !in files {
        return false;
      }
      var passed := CompareShape(files["en"], Some(files[locales[i]]));
      if !passed {
        return false;
      }
      i := i + 1;
    }
    ok := true;
  }
}

=== FILE: sanity_test.dfy ===
/**
 * The offline locale and catalog checks of scripts/sanity.test.js. An
 * `assert` that throws is a check that fails (`false`).
 */
module SanityTest {
  import opened Wrappers
  import opened JsonTree
  import I18n
  import Catalog

  /** The locales whose files are checked, English being the template. */
  const Locales: seq<string> := ["en", "ru", "he"]

  /**
   * `compareShape(base, candidate)`: an array base wants an array, any other
   * non-object base wants a defined value (null included), and an object base
   * wants every one of its keys as an own key of the candidate, recursively.
   * Extra candidate keys are never looked at.
   */
  predicate CompareShape(base: Json, candidate: Option<Json>) {
    match base
    case JArr(_) => candidate.Some? && candidate.value.JArr?
    case JObj(f) =>
      forall k | k in f :: HasOwn(candidate, k) && CompareShape(f[k], Lookup(candidate, k))
    case _ => candidate.Some?
  }

  /** The per-case behaviour of the check on each kind of base. */
  lemma CompareShapeCases(base: Json, candidate: Option<Json>)
    ensures base.JArr? ==>
      (CompareShape(base, candidate) <==> candidate.Some? && candidate.value.JArr?)
    ensures !base.JArr? && !base.JObj? ==>
      (CompareShape(base, candidate) <==> candidate != None)
    ensures base.JObj? && base.fields != map[] && (candidate == None || candidate == Some(JNull)) ==>
      !CompareShape(base, candidate)
    ensures base == JObj(map[]) ==> CompareShape(base, candidate)
  {
  }

  /** Every dictionary passes against itself: English is checked against English. */
  lemma {:induction false} CompareShapeReflexive(base: Json)
    ensures CompareShape(base, Some(base))
  {
    match base
    case JObj(f) =>
      forall k | k in f
        ensures HasOwn(Some(base), k) && CompareShape(f[k], Lookup(Some(base), k))
      {
        CompareShapeReflexive(f[k]);
      }
    case _ =>
  }

  /** Whatever the override, the merged dictionary has the base's shape. */
  lemma {:induction false} MergeConformsToBase(base: Json, override: Option<Json>)
    ensures CompareShape(base, Some(I18n.MergeWithFallback(base, override)))
  {
    var r := I18n.MergeWithFallback(base, override);
    match base
    case JObj(f) =>
      forall k | k in f
        ensures HasOwn(Some(r), k) && CompareShape(f[k], Lookup(Some(r), k))
      {
        MergeConformsToBase(f[k], Lookup(override, k));
      }
    case _ =>
  }

  /**
   * The locale test: every listed locale file is present and has the shape
   * of the English file.
   */
  predicate LocalesShareShape(files: map<string, Json>) {
    && "en" in files
    && forall i | 0 <= i < |Locales| ::
         Locales[i] in files && CompareShape(files["en"], Some(files[Locales[i]]))
  }

  /** Since English always matches itself, the test is about Russian and Hebrew. */
  lemma LocalesShareShapeExactly(files: map<string, Json>)
    ensures LocalesShareShape(files) <==>
      && "en" in files && "ru" in files && "he" in files
      && CompareShape(files["en"], Some(files["ru"]))
      && CompareShape(files["en"], Some(files["he"]))
  {
    if "en" in files {
      CompareShapeReflexive(files["en"]);
      assert Locales[0] == "en" && Locales[1] == "ru" && Locales[2] == "he";
    }
  }

  /** A catalog entry has own `id`, `title`, `category`, `src` of the right types. */
  predicate ArtworkRecordValid(a: Json) {
    && HasOwn(Some(a), "id") && HasOwn(Some(a), "title")
    && HasOwn(Some(a), "category") && HasOwn(Some(a), "src")
    && a.fields["id"].JNum?
    && a.fields["title"].JStr?
    && a.fields["category"].JStr?
    && a.fields["src"].JStr?
  }

  /** The catalog test: a non-empty array of valid entries. */
  predicate ArtworksValid(catalog: Json) {
    && catalog.JArr?
    && |catalog.items| > 0
    && forall i | 0 <= i < |catalog.items| :: ArtworkRecordValid(catalog.items[i])
  }

  /** A catalog passes the test exactly when every entry reads as an artwork record. */
  lemma ArtworksValidDecodes(catalog: Json)
    ensures ArtworksValid(catalog) <==>
      && catalog.JArr?
      && Catalog.DecodeAll(catalog.items).Some?
      && |Catalog.DecodeAll(catalog.items).value| > 0
  {
  }
}

=== FILE: translations.dfy ===
/**
 * The translation-loading step of the application component (src/App.jsx,
 * `loadTranslations`): a per-locale cache of raw dictionaries, English
 * fetched first, the target merged over English, and English as the
 * fallback when a fetch fails. Fetching is an oracle: `fetch(locale)` is
 * what `fetchLocale(locale)` would settle to.
 */
module Translations {
  import opened Wrappers
  import opened JsonTree
  import I18n
  import SanityTest

  /** The base locale every other locale falls back on. */
  const BaseLang: string := "en"

  /** How a `fetchLocale` call settles: the parsed dictionary, or a rejection message. */
  datatype Fetched = Loaded(dict: Json) | Failed(message: string)

  /**
   * The outcome of one load: the cache afterwards, the dictionary shown, the
   * error message recorded, and the locales fetched, in order.
   */
  datatype Load = Load(
    cache: map<string, Json>,
    translations: Option<Json>,
    error: Option<string>,
    fetched: seq<string>)

  /** The cache holds a usable (truthy) dictionary for `lang`: `if (cache[lang])`. */
  predicate Cached(cache: map<string, Json>, lang: string) {
    lang in cache && Truthy(cache[lang])
  }

  /**
   * The `catch` branch: the message is recorded, and English from the cache
   * is shown if there is one; otherwise the dictionary shown stays as it was.
   */
  function Fail(cache: map<string, Json>, previous: Option<Json>, message: string, fetched: seq<string>): (r: Load)
    ensures r.cache == cache && r.error == Some(message) && r.fetched == fetched
    ensures Cached(cache, BaseLang) ==> r.translations == Some(cache[BaseLang])
    ensures !Cached(cache, BaseLang) ==> r.translations == previous
  {
    Load(cache, if Cached(cache, BaseLang) then Some(cache[BaseLang]) else previous, Some(message), fetched)
  }

  /** One run of `loadTranslations` for `lang`, starting from `cache`. */
  function LoadTranslations(cache: map<string, Json>, lang: string, previous: Option<Json>,
                            fetch: string -> Fetched): (r: Load)
    // English is fetched first, and only when it is not cached.
    ensures BaseLang in r.fetched <==> !Cached(cache, BaseLang)
    ensures |r.fetched| <= 2
    ensures |r.fetched| == 2 ==> r.fetched == [BaseLang, lang]
    ensures lang == BaseLang ==> |r.fetched| <= 1
    ensures forall i | 0 <= i < |r.fetched| :: r.fetched[i] == BaseLang || r.fetched[i] == lang
    // Another locale is fetched only when it is not cached and English is available.
    ensures lang != BaseLang && lang in r.fetched ==>
      !Cached(cache, lang) && (Cached(cache, BaseLang) || fetch(BaseLang).Loaded?)
    ensures lang != BaseLang && !Cached(cache, lang) && (Cached(cache, BaseLang) || fetch(BaseLang).Loaded?) ==>
      lang in r.fetched
    // The error is the message of the fetch that failed, and only a failed fetch sets it.
    ensures r.error.Some? <==> exists i | 0 <= i < |r.fetched| :: fetch(r.fetched[i]).Failed?
    ensures r.error.Some? ==>
      && |r.fetched| > 0 && fetch(r.fetched[|r.fetched| - 1]).Failed?
      && r.error == Some(fetch(r.fetched[|r.fetched| - 1]).message)
    // On success the shown dictionary is the target merged over English.
    ensures r.error.None? ==>
      && BaseLang in r.cache && lang in r.cache
      && r.translations == Some(I18n.MergeWithFallback(r.cache[BaseLang], Some(r.cache[lang])))
    // On failure English from the cache is shown if there is one.
    ensures r.error.Some? ==>
      r.translations == if Cached(r.cache, BaseLang) then Some(r.cache[BaseLang]) else previous
    // The cache only grows, and stores raw fetched dictionaries.
    ensures forall l | Cached(cache, l) :: l in r.cache && r.cache[l] == cache[l]
    ensures r.cache.Keys <= cache.Keys + {BaseLang, lang}
    ensures forall i | 0 <= i < |r.fetched| && fetch(r.fetched[i]).Loaded? ::
      r.fetched[i] in r.cache && r.cache[r.fetched[i]] == fetch(r.fetched[i]).dict
    // Every new or changed entry is a dictionary that was just fetched.
    ensures forall l | l in r.cache && !(l in cache && r.cache[l] == cache[l]) ::
      l in r.fetched && fetch(l).Loaded? && r.cache[l] == fetch(l).dict
  {
    var enCached := Cached(cache, BaseLang);
    if !enCached && fetch(BaseLang).Failed? then
      Fail(cache, previous, fetch(BaseLang).message, [BaseLang])
    else
      var c1 := if enCached then cache else cache[BaseLang := fetch(BaseLang).dict];
      var first: seq<string> := if enCached then [] else [BaseLang];
      var en := c1[BaseLang];
      if lang == BaseLang then
        Load(c1, Some(I18n.MergeWithFallback(en, Some(en))), None, first)
      else if Cached(c1, lang) then
        Load(c1, Some(I18n.MergeWithFallback(en, Some(c1[lang]))), None, first)
      else
        match fetch(lang)
        case Failed(m) => Fail(c1, previous, m, first + [lang])
        case Loaded(d) =>
          Load(c1[lang := d], Some(I18n.MergeWithFallback(en, Some(d))), None, first + [lang])
  }

  /**
   * English is not cached and its fetch fails: nothing is cached, the error
   * is recorded, and whatever was shown before stays.
   */
  lemma EnglishFailureKeepsPrevious(cache: map<string, Json>, lang: string, previous: Option<Json>,
                                    fetch: string -> Fetched)
    requires !Cached(cache, BaseLang) && fetch(BaseLang).Failed?
    ensures var r := LoadTranslations(cache, lang, previous, fetch);
            && r.translations == previous && r.cache == cache
            && r.error == Some(fetch(BaseLang).message) && r.fetched == [BaseLang]
  {
  }

  /** Loading English shows the English dictionary itself. */
  lemma EnglishShowsEnglish(cache: map<string, Json>, previous: Option<Json>, fetch: string -> Fetched)
    ensures var r := LoadTranslations(cache, BaseLang, previous, fetch);
            r.error.None? ==> r.translations == Some(r.cache[BaseLang])
  {
    var r := LoadTranslations(cache, BaseLang, previous, fetch);
    if r.error.None? {
      I18n.MergeSelf(r.cache[BaseLang]);
    }
  }

  /** A successful load always shows a dictionary with English's shape. */
  lemma LoadedHasEnglishShape(cache: map<string, Json>, lang: string, previous: Option<Json>,
                              fetch: string -> Fetched)
    ensures var r := LoadTranslations(cache, lang, previous, fetch);
            r.error.None? ==>
              r.translations.Some? && SanityTest.CompareShape(r.cache[BaseLang], r.translations)
  {
    var r := LoadTranslations(cache, lang, previous, fetch);
    if r.error.None? {
      SanityTest.MergeConformsToBase(r.cache[BaseLang], Some(r.cache[lang]));
    }
  }

  /**
   * Switching back to a locale loaded before fetches nothing and shows the
   * same dictionary, whatever the network would now answer.
   */
  lemma ReloadUsesCache(cache: map<string, Json>, lang: string, previous: Option<Json>,
                        fetch: string -> Fetched, later: Option<Json>, refetch: string -> Fetched)
    requires var r := LoadTranslations(cache, lang, previous, fetch);
             r.error.None? && Truthy(r.cache[BaseLang]) && Truthy(r.cache[lang])
    ensures var r := LoadTranslations(cache, lang, previous, fetch);
            var again := LoadTranslations(r.cache, lang, later, refetch);
            again.fetched == [] && again.error.None? && again.translations == r.translations
            && again.cache == r.cache
  {
  }

  /** The Hebrew fetch fails after English is cached: English is shown and the error recorded. */
  lemma HebrewFailureFallsBack(en: Json, previous: Option<Json>, fetch: string -> Fetched)
    requires Truthy(en)
    requires fetch("he").Failed?
    ensures var r := LoadTranslations(map[BaseLang := en], "he", previous, fetch);
            r.translations == Some(en) && r.error == Some(fetch("he").message)
            && r.fetched == ["he"]
  {
  }
}

=== FILE: wrappers.dfy ===
/** Optional values: `None` stands for JavaScript's `undefined`. */
module Wrappers {

  datatype Option<+T> = None | Some(value: T) {

    /** The `??` operator. */
    function GetOr(default: T): T {
      match this
      case Some(v) => v
      case None => default
    }
  }
}
